=== FILE: README.md ===
# twbridge core in Dafny

This project models the event translation and routing layer of twbridge, a Telegram ↔ WhatsApp bridge written in Go. Each Telegram chat gets its own events handler. The handler logs in to WhatsApp, forwards incoming WhatsApp text messages to the chat as a transcript, and is meant to route replies back. Every piece is written as pure functions or small state transitions over immutable data:

- `Domain` (`internal/domain/domain.go`) has the closed event union (`Start`, `Login`, `TextMessage`, `Reply`), the `Type()` tags and the WhatsApp contact record.
- `Helpers` (`internal/domain/helpers.go`) has `ExtractMsgJid`. It recovers a WhatsApp JID from a transcript by index arithmetic on the first `"jid:"` and the first `"]"`.
- `Telegram` (`internal/telegram/events_provider.go`) translates one Telegram update into at most one event. It also covers the provider loop over a stream of updates.
- `WhatsappClient` (`internal/whatsapp/client.go`) covers the contact projection, the message-type dispatch of `Send`, and the step order of `Logout` and `Restore`.
- `WhatsappEvents` (`internal/whatsapp/events_provider.go`) covers three things:
  - the ingestion filter for incoming text messages;
  - the error classifier;
  - the bounded restore loop.
- `Manager` (`internal/manager/clients_manager.go`) is the registry of chats. Each chat maps to the queue of events forwarded to its handler, and the manager's switch is a transition function on that registry.
- `Handler` (`internal/handler/events_handler.go`) covers:
  - per-event dispatch;
  - the transcript template;
  - which chat each message goes to;
  - the state change of the login path.
- `Bridge` ties these together. A handler's channel has two producers. The manager forwards the chat's Telegram events into it (internal/manager/clients_manager.go:61-93). Every WhatsApp events provider the handler's logins attach pushes text messages straight into the same channel (internal/handler/events_handler.go:121-125).
- Support modules: `Wrappers` (Option/Result), `GoErrors` (Go `int64`/`uint64` and the error values the core inspects) and `Strings` (Go's `strings.Index`/`strings.Contains`).

This revision of the code is not internally consistent, and each piece is modelled the way its call site uses it:

- `TextMessageEvent` is declared without a `ChatID` (internal/domain/domain.go:45-54), but the WhatsApp provider sets one (internal/whatsapp/events_provider.go:135).
  - The event keeps its declared three fields.
  - The provider returns the chat identifier beside the event (`WhatsappEvents.Emission`).
- `domain.WhatsappMessage` and `WhatsappTextMessageType` are used by `Client.Send` but declared nowhere. They are modelled in `WhatsappClient` as a two-variant union: text, or anything else.
- The `WhatsappClient` interface lacks `Logout`. `Logout` is modelled on the concrete client.
- The handler builds the WhatsApp events provider without setting its `ChatID` (internal/handler/events_handler.go:121-125). The provider therefore tags its events with chat 0 (`Handler.HandleLogin`). This is harmless, because the handler sends transcripts to its own chat.
- The helper's test formats with `domain.TextMessageFmt`, which does not exist. The handler's real template writes `Jid: <jid>` with no brackets. A reply to a transcript therefore never recovers the sender's JID (`Handler.TranscriptDropsJid`). A `"jid: x]"` inside the message text makes it pick `x` instead (`Handler.TranscriptTextCanMisCorrelate`).

Behaviour that the code's tests and TODOs expect but the code does not implement; the model follows the code:

- A repeated `Start` on a known chat is dropped and does not reach the handler (internal/manager/clients_manager.go:55-59). The test at internal/manager/clients_manager_test.go:18-49 expects it to be forwarded.
- A failed restore emits nothing. Both call sites carry `// TODO: send disconnect event` (internal/whatsapp/events_provider.go:65, 70).
- Only `/start` and `/login` are commands (internal/telegram/events_provider.go:51-62). The tests at internal/telegram/events_provider_test.go:105-179 expect `/logout` and `/help` to produce events.
- The handler's switch has no case for `Reply` (internal/handler/events_handler.go:75-82), so replies never reach WhatsApp's `Send`.
- Login has no state of its own. Each `Login` whose connection is created replaces the handler's client and attaches one more provider, and no earlier provider is ever detached (internal/handler/events_handler.go:117-125). This happens before the QR login. The client stays installed when `wac.Login` then fails, because that failure is only logged (internal/handler/events_handler.go:165-171).
- The transcript template writes `Jid: %s` with no `[jid: …]` bracket (internal/handler/events_handler.go:25-28), while the reply path looks for `"jid:"` … `"]"`.

## Model

| member | source | states |
|---|---|---|
| `Strings.IndexOf` | internal/domain/helpers.go:8-9 | `strings.Index`: -1 exactly when the pattern does not occur; otherwise an index where it occurs, with no earlier occurrence |
| `Helpers.ExtractMsgJid` | internal/domain/helpers.go:7-15 | "" when `"jid:"` is missing, when `"]"` is missing, or when the first `"]"` is at most 5 past the first `"jid:"`; otherwise a non-empty string that occurs right after `"jid: "`, with slice bounds valid (`0 <= start+5 < end <= len`); the result never contains `']'` |
| `Helpers.ExtractRoundTrip` | internal/domain/helpers.go:14 | for `p + "jid: " + j + "]" + s`, where `p` holds neither `"jid:"` nor `"]"` and `j` is a non-empty run without `"]"`, the result is exactly `j` |
| `Helpers.ExtractNegativeVectors` | internal/domain/helpers_test.go:16-43 | the test's empty-result inputs `""`, `"[jid:]"`, `"][jid:]"`, `"jid: "`, `"[jid: dasd@asdsad.com"` and `"ewfwefwef"` all yield "" |
| `Domain.ChatOf` | internal/domain/domain.go:19-77 | `Start`, `Login` and `Reply` name a chat; `TextMessage`, as declared, carries nothing that identifies a chat |
| `Domain.TagsDistinct` | internal/domain/domain.go:7-10 | the four type tags are pairwise distinct |
| `Domain.TypeIdentifiesVariant` | internal/domain/domain.go:27-77 | `Type()` is "start", "login", "text_message" or "reply" exactly for the matching variant, so equal tags mean the same variant |
| `Telegram.Translate` | internal/telegram/events_provider.go:44-78 | no event without a message. Exact, case-sensitive `/start` and `/login` give Start/Login with the chat ID and user name. Any other text gives a Reply exactly when it replies to a text from which `ExtractMsgJid` recovers a JID, and the Reply carries the message text and that JID. Every event names the update's chat and is never a text message |
| `Telegram.TranslateAsWritten` | internal/telegram/events_provider.go:62-77 | the loop as written panics exactly when the replied-to text has `"jid:"` before `"]"` but fewer than 5 characters apart (guard `start < end` without `start+5 <= end`) |
| `Telegram.BracketOnlyReplyPanics` | internal/telegram/events_provider.go:65-74 | replying to `"[jid:]"` passes the inline guard and slices `[6:5]` |
| `Telegram.CorrectedAgreesWithAsWritten` | internal/telegram/events_provider.go:69-74 | the corrected guard agrees with the loop as written except on replies that would panic or carry an empty JID |
| `Telegram.TranslateAll` | internal/telegram/events_provider.go:36-81 | the provider loop yields at most one event per update, each one the translation of some update, and never a text message |
| `Telegram.TranslateAllSingle` | internal/telegram/events_provider.go:44-78 | one update yields exactly its translation when it has one, and nothing otherwise |
| `Telegram.TranslateAllAppend` | internal/telegram/events_provider.go:36-81 | the loop's output over `a + b` is its output over `a` followed by its output over `b`. With `TranslateAllSingle`, every translatable update yields exactly its event, in update order |
| `Telegram.ReplyVector` | internal/telegram/events_provider_test.go:193-237 | the test's reply to `"From: Username Surename [jid: example@mail.com]…"` yields `Reply{42, "testuser", "reply to a message", "example@mail.com"}` |
| `Telegram.LogoutAndHelpAreNotCommands` | internal/telegram/events_provider_test.go:105-179 | `/logout`, `/help` and `/Start`, when they are not replies, yield no event, although the tests expect events |
| `WhatsappClient.GetContacts` | internal/whatsapp/client.go:36-50 | with no store, an empty map; otherwise the same key set as the store, each value copying only `Jid` and `Name` |
| `WhatsappClient.GetContactsVector` | internal/whatsapp/client_test.go:14-56 | the test's three stored contacts project to JID and name, with notify and short names dropped |
| `WhatsappClient.Send` | internal/whatsapp/client.go:53-71 | a non-text message returns `ErrUnsupportedMessageType` without touching the connection; a text message sends one message with its JID and text, and returns the connection's error |
| `WhatsappClient.SendReachesConnOnlyForText` | internal/whatsapp/client.go:55-68 | the connection's `Send` is reached exactly for text messages; otherwise the error is the unsupported-type sentinel |
| `WhatsappClient.Logout` | internal/whatsapp/client.go:28-33 | exactly two calls on the connection, `RemoveHandlers` then `Logout`, each once, so no update arrives after the session is invalidated; the logout error is returned |
| `WhatsappClient.Restore` | internal/whatsapp/client.go:23-25 | exactly one call, to the connection's `Restore`, and the connection's error is returned unchanged. `RestoreSession` makes every attempt through it |
| `GoErrors.Uint64Of` | internal/whatsapp/events_provider.go:109 | `uint64(startAt)` is `startAt` reduced modulo 2^64: unchanged when non-negative, at least 2^63 when negative |
| `WhatsappEvents.HandleTextMessage` | internal/whatsapp/events_provider.go:108-137 | messages older than `startAt`, or sent by the operator, are dropped with no contact lookup. Any other message does one lookup and emits one text-message event tagged with the provider's chat. The event carries the message's JID and text, and the contact's name or `"<unknown>"` |
| `WhatsappEvents.SenderNameFromStore` | internal/whatsapp/events_provider.go:122-129 | composed with `GetContacts`: the sender name is the stored contact's name, or `"<unknown>"` when there is no store or no entry |
| `WhatsappEvents.RestoreSession` | internal/whatsapp/events_provider.go:76-100 | through `WhatsappClient.Restore`, the connection receives only `Restore` calls: at most 3, stopping at the first nil error. Success is reported exactly when the last call made succeeded, and failure only after 3 failures. There is one 1-second pause per failed attempt, the last included. `startAt` is set to the success time, and is changed only on success |
| `WhatsappEvents.HandleError` | internal/whatsapp/events_provider.go:52-74 | an error whose text contains either harmless text causes no `Restore`, whatever its kind. Otherwise the restore loop runs exactly for a closed connection, a failed connection, or an error whose wrap chain holds the timeout sentinel. Nothing else changes |
| `WhatsappEvents.RestoredIffSomeAttemptSucceeds` | internal/whatsapp/events_provider.go:77-99 | the loop reports success exactly when one of the 3 allowed attempts would succeed |
| `WhatsappEvents.StartAtNeverDecreases` | internal/whatsapp/events_provider.go:83-85 | with a clock never earlier than `startAt`, a restore never moves `startAt` back, so a message dropped as history stays dropped |
| `WhatsappEvents.ClassifierVectors` | internal/whatsapp/events_provider.go:62-72 | a plain error (the test's `errors.New("test error")`) starts no restore, although the test expects one. A wrapped timeout starts one. A wrapped closed-connection error does not |
| `Manager.Route` | internal/manager/clients_manager.go:54-94 | `Start` for a new chat adds exactly that entry, with queue `[Start]`. `Start` for a known chat changes nothing. `Login`/`Reply` are appended to a known chat's queue only, and dropped for unknown chats. Text messages are ignored. Other chats are untouched |
| `Manager.Run` | internal/manager/clients_manager.go:42-97 | over any event stream, registered chats stay registered and their queues only grow at the end |
| `Manager.RunForwardsInArrivalOrder` | internal/manager/clients_manager.go:55-93 | each chat's queue grows by exactly its first `Start` (if new) and then its `Login`/`Reply` events, in arrival order |
| `Manager.RegisteredIffStarted` | internal/manager/clients_manager.go:55-72 | a chat is registered after the loop exactly when it was before or a `Start` for it arrived |
| `Manager.RunKeepsWellFormed` | internal/manager/clients_manager.go:61-93 | every queue starts with the `Start` that created it and holds only events for its own chat |
| `Handler.HandleLogin` | internal/handler/events_handler.go:103-125 | if connection creation fails, nothing changes. Otherwise the client is replaced and one more provider (current time, chat 0) is attached after the earlier ones, whatever the QR login then returns |
| `Handler.Dispatch` | internal/handler/events_handler.go:65-85 | `Start` sends the greeting to the event's chat. A text message sends exactly `"From: " + name + "\nJid: " + jid + "\n= = = = = = = = = = = =\nMessage: " + text` to the handler's own chat. `Login` sends no text message (its QR photo upload is left out) and only changes state. `Reply` is ignored |
| `Handler.DrainQueue` | internal/handler/events_handler.go:65-85 | the loop sends exactly what the state-independent reference `Sends` gives, in queue order: a greeting to the chat of each `Start`, and the transcript of each text message to the handler's chat. It ends with its initial providers followed by one per `Login` whose connection was created. Every message goes to its own chat or to a chat named by a `Start` in the queue |
| `Handler.LoginClientPersists` | internal/handler/events_handler.go:117-171 | after a `Login` whose connection was created, the handler holds that client through any later events that are not a `Login` whose connection is created, including `Login`s whose connection fails, whatever each QR login returned |
| `Handler.TextMessagesForwarded` | internal/handler/events_handler.go:178-191 | every WhatsApp text message in a queue is sent to the handler's chat as its transcript |
| `Handler.TranscriptDropsJid` | internal/handler/events_handler.go:25-28 | the template writes `Jid: ` without brackets, so if name, JID and text hold no `"jid:"`, `ExtractMsgJid` of the transcript is "" |
| `Handler.TranscriptTextCanMisCorrelate` | internal/handler/events_handler.go:25-28 | if the WhatsApp text is `"jid: " + x + "]" + rest` and the name and JID hold neither `"jid:"` nor `"]"`, `ExtractMsgJid` of the transcript is `x` and not the sender's JID |
| `Bridge.HandlersWriteOnlyToOwnChat` | internal/handler/events_handler.go:121-125 | from an empty registry and any event stream, take a handler queue drawn from the manager's output for chat `c` and from WhatsApp text messages. The handler sends to Telegram only in `c`, and forwards every such text message to `c` |
| `Bridge.FirstStartGreets` | internal/handler/events_handler.go:87-101 | `/start` from a new chat registers it with queue `[Start]`, and its handler greets that chat |
| `Bridge.RepliesStopAtTheHandler` | internal/handler/events_handler.go:75-82 | a correlated reply reaches its chat's queue, but the handler sends nothing and is unchanged |

## Findings

| source | as written | input that shows it | evidently intended | confidence | as-written member | corrected member |
|---|---|---|---|---|---|---|
| internal/telegram/events_provider.go:69 | the guard `jidStart < jidEnd` is followed by the slice `[jidStart+5 : jidEnd]` | replied-to text `"[jid:]"`: marker at 1, `"]"` at 5, slice `[6:5]`, runtime panic. `"jid: ]"` yields a Reply with an empty JID | the helper's guard `jidStart+5 < jidEnd` (internal/domain/helpers.go:10); line 68 carries a TODO to check the borders | not executed; high | `Telegram.TranslateAsWritten` with `Telegram.BracketOnlyReplyPanics` | `Telegram.Translate` with `Telegram.CorrectedAgreesWithAsWritten`, used by `Telegram.TranslateAll` and `Bridge` |

## Left out

- Channels, goroutines, `context` cancellation and the blocking semantics of channel sends. Each loop is a sequential function over a sequence of inputs; the per-chat order it keeps is proved instead.
- `time.Sleep` and `time.Now`. Pauses are counted (`RestoreRun.waits`), with their total length in `RestoreRun.sleptSeconds`. The clock is an input carried by each restore answer.
- The QR handshake in `handleLoginEvent` is not modelled: the QR channel, PNG rendering, photo upload and the blocking `wac.Login`. Only the state it leaves behind is kept, and that does not depend on the handshake result.
- `AddHandler`, `SetClientVersion` and the library connection itself. They are replaced by the calls the wrapper makes (`ConnCall`) and by their error results.
- Logging (zap). It has no observable effect on state.
- `ShouldCallSynchronously` returns a constant. It is the library's dispatch mode, not a behaviour of the core.
- Process bootstrap in cmd/twbridge/app/root.go and the logger set-up in internal/log/log.go are not part of this model.
- Strings are sequences of characters, while Go indexes bytes. The two agree when the character after `"jid:"` is one byte, as with the ASCII transcripts involved.
- Chat identifiers are unbounded integers. They are only compared, so the `int64` width does not matter.
- WhatsappEvents.RestoreSession: the connection's answers to the three possible `Restore` calls come in as a sequence of at least three answers, one per call the loop may make. Only the calls actually made are consulted.
- Handler.DrainQueue: the connection, clock and handshake readings come in as one environment value per queued event. Only `Login` events read them.
- Bridge.HandlersWriteOnlyToOwnChat: the interleaving of the two producers is not modelled as a schedule. The lemma holds for any queue whose events come from either producer, in any order.
- Events the code does not implement are not modelled: `Logout`, `Help`, `Disconnect`, image messages, a login-state machine, and non-blocking sends.

=== FILE: bridge.dfy ===
/** Properties of the pieces wired together: the manager creates each chat's
    handler with that chat's identifier and feeds it the chat's Telegram events,
    and the WhatsApp providers the handler attaches feed it text messages. */
module Bridge {
  import opened Wrappers
  import opened Domain
  import Telegram
  import Manager
  import Handler

  /** A handler's channel has two producers: the manager, which forwards the
      chat's Telegram events, and every WhatsApp events provider the handler's
      logins attached, which push text messages straight into the same channel.
      Starting from the empty registry, for any queue drawn from the manager's
      output for chat `c` and from WhatsApp text messages, the handler sends to
      Telegram only in `c`, and forwards every text message to `c`. */
  lemma HandlersWriteOnlyToOwnChat(events: seq<Event>, c: ChatId, queue: seq<Event>, envs: seq<Handler.LoginEnv>)
    requires c in Manager.Run(map[], events)
    requires forall i :: 0 <= i < |queue| ==> queue[i].TextMessage? || queue[i] in Manager.Run(map[], events)[c]
    requires |envs| == |queue|
    ensures var sent := Handler.DrainQueue(Handler.NewEventsHandler(c), queue, envs).sent;
            forall o :: o in sent ==> o.chatID == c
    ensures var sent := Handler.DrainQueue(Handler.NewEventsHandler(c), queue, envs).sent;
            forall k :: 0 <= k < |queue| && queue[k].TextMessage? ==>
              Handler.SendText(c, Handler.RenderTextMessage(queue[k].whatsappSenderName, queue[k].whatsappRemoteJid, queue[k].text))
              in sent
  {
    Manager.RunKeepsWellFormed(map[], events);
    var fromManager := Manager.Run(map[], events)[c];
    var r := Handler.DrainQueue(Handler.NewEventsHandler(c), queue, envs);
    forall k | 0 <= k < |queue| && queue[k].Start?
      ensures queue[k].chatID == c
    {
      var j :| 0 <= j < |fromManager| && fromManager[j] == queue[k];
      assert ChatOf(fromManager[j]) == Some(c);
    }
    forall o | o in r.sent
      ensures o.chatID == c
    {
      var i :| 0 <= i < |r.sent| && r.sent[i] == o;
    }
    forall k | 0 <= k < |queue| && queue[k].TextMessage?
      ensures Handler.SendText(c, Handler.RenderTextMessage(queue[k].whatsappSenderName, queue[k].whatsappRemoteJid, queue[k].text))
              in r.sent
    {
      Handler.TextMessagesForwarded(c, queue, k);
    }
  }

  /** A "/start" from a chat with no handler registers one whose queue holds just
      that `Start`, and the new handler greets the chat. */
  lemma FirstStartGreets(reg: Manager.Registry, chat: ChatId, user: string, env: Handler.LoginEnv)
    requires chat !in reg
    ensures var e := Telegram.Translate(Telegram.Update(Some(Telegram.Message(chat, user, "/start", None))));
            && e == Some(Start(chat, user))
            && Manager.Route(reg, e.value)[chat] == [e.value]
            && Handler.Dispatch(Handler.NewEventsHandler(chat), e.value, env).sent == [Handler.SendText(chat, Handler.Greeting)]
  {
  }

  /** A correlated reply reaches its chat's queue but the handler has no case
      for it: nothing is sent anywhere and the handler is unchanged. */
  lemma RepliesStopAtTheHandler(reg: Manager.Registry, u: Telegram.Update, env: Handler.LoginEnv)
    requires Telegram.Translate(u).Some? && Telegram.Translate(u).value.Reply?
    requires u.message.value.chatID in reg
    ensures var e := Telegram.Translate(u).value;
            var h := Handler.NewEventsHandler(e.chatID);
            && Manager.Route(reg, e)[e.chatID] == reg[e.chatID] + [e]
            && Handler.Dispatch(h, e, env) == Handler.Reaction(h, [])
  {
  }
}

=== FILE: domain.dfy ===
/** The bridge's event taxonomy and the contact record (package `domain`).

    The declared `TextMessageEvent` has no chat identifier, although the WhatsApp
    events provider sets a `ChatID` on it; this model keeps the declared shape and
    lets the provider return the chat identifier beside the event. The
    `WhatsappClient` interface lacks `Logout`, and `WhatsappMessage` with its text
    variant is used by the WhatsApp client but declared nowhere in this package;
    both are modelled where they are used. */
module Domain {
  import opened Wrappers

  /** Telegram chat identifiers are Go `int64`; they are only compared, never computed on. */
  type ChatId = int

  /** The tag `Type()` reports. */
  type EventType = string

  const StartEventType: EventType := "start"
  const LoginEventType: EventType := "login"
  const TextMessageEventType: EventType := "text_message"  // WhatsApp only
  const ReplyEventType: EventType := "reply"                // Telegram only

  /** The closed set of events flowing between the providers, the manager and the handlers. */
  datatype Event =
    | Start(chatID: ChatId, fromUser: string)
    | Login(chatID: ChatId, fromUser: string)
    | TextMessage(whatsappRemoteJid: string, whatsappSenderName: string, text: string)
    | Reply(chatID: ChatId, fromUser: string, reply: string, remoteJid: string)
  {
    function Type(): (t: EventType) {
      match this
      case Start(_, _) => StartEventType
      case Login(_, _) => LoginEventType
      case TextMessage(_, _, _) => TextMessageEventType
      case Reply(_, _, _, _) => ReplyEventType
    }
  }

  /** The Telegram chat an event names, if its type has such a field. */
  function ChatOf(e: Event): (r: Option<ChatId>)
    ensures r.None? <==> e.TextMessage?
    ensures r.Some? ==> r.value == e.chatID
  {
    if e.TextMessage? then None else Some(e.chatID)
  }

  /** A WhatsApp contact as the core sees it. */
  datatype WhatsappContact = WhatsappContact(jid: string, name: string)

  /** The four tags are pairwise distinct. */
  lemma TagsDistinct()
    ensures |{StartEventType, LoginEventType, TextMessageEventType, ReplyEventType}| == 4
  {
  }

  /** Each variant reports its own tag, and the tag alone tells the variant apart. */
  lemma TypeIdentifiesVariant(a: Event, b: Event)
    ensures a.Start? <==> a.Type() == "start"
    ensures a.Login? <==> a.Type() == "login"
    ensures a.TextMessage? <==> a.Type() == "text_message"
    ensures a.Reply? <==> a.Type() == "reply"
    ensures a.Type() == b.Type() <==> (a.Start? && b.Start?) || (a.Login? && b.Login?)
                                      || (a.TextMessage? && b.TextMessage?) || (a.Reply? && b.Reply?)
  {
  }
}

=== FILE: goerrors.dfy ===
/** The Go machine integers and error values the bridge core distinguishes. */
module GoErrors {

  /** Go's `int64`. */
  type Int64 = x: int | -0x8000_0000_0000_0000 <= x < 0x8000_0000_0000_0000

  /** Go's `uint64`. */
  type Uint64 = x: int | 0 <= x < 0x1_0000_0000_0000_0000

  const Uint64Modulus: int := 0x1_0000_0000_0000_0000

  /** Go's conversion `uint64(x)` of an `int64`: the same 64 bits read as unsigned,
      so a negative value wraps around to a large one. */
  function Uint64Of(x: Int64): (r: Uint64)
    ensures (r - x) % Uint64Modulus == 0
    ensures x >= 0 ==> r == x
    ensures x < 0 ==> r >= 0x8000_0000_0000_0000
  {
    if x >= 0 then x else x + Uint64Modulus
  }

  /** Named error values compared by identity (`errors.Is`) rather than by type. */
  datatype Sentinel =
    | ConnectionTimeout       // whatsapp.ErrConnectionTimeout
    | UnsupportedMessageType  // whatsapp.ErrUnsupportedMessageType of this repository

  /** A Go `error` value, as far as the core inspects it: its dynamic type, the
      chain of errors it wraps, and the text `Error()` returns. */
  datatype Error =
    | ConnectionClosed(text: string)                 // *whatsapp.ErrConnectionClosed
    | ConnectionFailed(text: string)                 // *whatsapp.ErrConnectionFailed
    | SentinelError(sentinel: Sentinel, text: string)
    | Wrapped(text: string, inner: Error)            // an error built with fmt.Errorf("...%w")
    | Plain(text: string)                            // any other error, e.g. errors.New("...")
  {
    /** The string `Error()` returns. */
    function Message(): (m: string) {
      match this
      case ConnectionClosed(t) => t
      case ConnectionFailed(t) => t
      case SentinelError(_, t) => t
      case Wrapped(t, _) => t
      case Plain(t) => t
    }
  }

  /** Go's `errors.Is(err, target)` for a sentinel target: the error itself or any
      error in its wrap chain is that sentinel. */
  predicate IsSentinel(err: Error, target: Sentinel) {
    match err
    case SentinelError(s, _) => s == target
    case Wrapped(_, inner) => IsSentinel(inner, target)
    case _ => false
  }

  /** `ErrUnsupportedMessageType = errors.New("got unsupported message type")`. */
  const ErrUnsupportedMessageType: Error := SentinelError(UnsupportedMessageType, "got unsupported message type")
}

=== FILE: handler.dfy ===
/** A chat's events handler: dispatch on the event variant, the transcript
    rendering of WhatsApp text messages, the greeting, and the WhatsApp client
    the login path installs. Telegram sends become `Outbound` values; the QR
    handshake is not modelled beyond its effect on the handler's state. */
module Handler {
  import opened Wrappers
  import opened GoErrors
  import opened Strings
  import opened Domain
  import opened Helpers
  import WhatsappClient
  import WhatsappEvents

  /** The greeting `handleStartEvent` sends, including the raw literal's
      surrounding newlines and tab indentation. */
  const Greeting: string :=
    "\n\t\tHello, this is telegram<->whatsapp bridge that allows you to get your whatsapp messages here."
    + "\n\t\tTo start, you need to scan a QR code that will appear here with whatsapp application on your phone."
    + "\n\t\tType /login to begin.\n\t"

  /** The fixed parts of `textMessageFmt` ("From: %s\nJid: %s\n= = ...\nMessage: %s"). */
  const FromLabel: string := "From: "
  const JidLabel: string := "\nJid: "
  const MessageLabel: string := "\n= = = = = = = = = = = =\nMessage: "

  /** `textMessageFmt` up to the message text. */
  function TemplateHead(name: string, jid: string): (r: string) {
    FromLabel + name + JidLabel + jid + MessageLabel
  }

  /** `textMessageFmt` filled with sender name, JID and text. */
  function RenderTextMessage(name: string, jid: string, text: string): (r: string) {
    TemplateHead(name, jid) + text
  }

  /** A message sent to Telegram. */
  datatype Outbound = SendText(chatID: ChatId, text: string)

  /** The handler's state: its chat, the WhatsApp client installed by the last
      `Login` whose connection was created (whether or not its QR login then
      succeeded), and every events provider such a `Login` has attached. A later
      one replaces the client but removes no earlier provider: each stays
      attached to its own connection and keeps writing into the handler's
      channel. */
  datatype EventsHandler = EventsHandler(
    chatID: ChatId,
    client: Option<WhatsappClient.Conn>,
    providers: seq<WhatsappEvents.Provider>)

  function NewEventsHandler(chatID: ChatId): (r: EventsHandler) {
    EventsHandler(chatID, None, [])
  }

  /** What the login path gets from outside: the result of creating a connection,
      the clock, and the outcome of the blocking QR login. */
  datatype LoginEnv = LoginEnv(connection: Result<WhatsappClient.Conn, Error>, now: Int64, handshake: Option<Error>)

  /** The handler after an event, and what it sent to Telegram. */
  datatype Reaction = Reaction(handler: EventsHandler, sent: seq<Outbound>)

  /** The provider a `Login` whose connection is created attaches: built with the current time and,
      since its options omit the chat, chat identifier 0. */
  function LoginProvider(env: LoginEnv): (r: WhatsappEvents.Provider) {
    WhatsappEvents.Provider(env.now, 0)
  }

  /** `handleLoginEvent`, reduced to its effect on state: when the connection is
      created the client is replaced and one more provider is attached, whatever
      the handshake then returns; when creation fails nothing changes. */
  function HandleLogin(h: EventsHandler, env: LoginEnv): (r: EventsHandler)
    ensures r.chatID == h.chatID
    ensures env.connection.Failure? ==> r == h
    ensures env.connection.Success? ==>
              && r.client == Some(env.connection.value)
              && r.providers == h.providers + [LoginProvider(env)]
  {
    match env.connection
    case Failure(_) => h
    case Success(conn) => h.(client := Some(conn), providers := h.providers + [LoginProvider(env)])
  }

  /** One pass of the handler's `Run` switch. A `Start` greets the chat the event
      names; a WhatsApp text message is rendered and sent to the handler's own
      chat; a `Login` only changes state; a `Reply` has no case and is dropped. */
  function Dispatch(h: EventsHandler, e: Event, env: LoginEnv): (r: Reaction)
    ensures r.handler.chatID == h.chatID
    ensures e.Start? ==> r == Reaction(h, [SendText(e.chatID, Greeting)])
    ensures e.TextMessage? ==>
              r == Reaction(h, [SendText(h.chatID, RenderTextMessage(e.whatsappSenderName, e.whatsappRemoteJid, e.text))])
    ensures e.Login? ==> r.sent == [] && r.handler == HandleLogin(h, env)
    ensures e.Reply? ==> r == Reaction(h, [])
    ensures !e.Login? ==> r.handler == h
  {
    match e
    case Start(chat, _) => Reaction(h, [SendText(chat, Greeting)])
    case Login(_, _) => Reaction(HandleLogin(h, env), [])
    case TextMessage(jid, name, text) => Reaction(h, [SendText(h.chatID, RenderTextMessage(name, jid, text))])
    case Reply(_, _, _, _) => Reaction(h, [])
  }

  /** Reference definition of what a handler of `chat` sends for a queue,
      independent of its state: a greeting to the chat each `Start` names, the
      transcript of each WhatsApp text message to `chat`, nothing for the rest. */
  function Sends(chat: ChatId, queue: seq<Event>): (r: seq<Outbound>)
    decreases |queue|
  {
    if queue == [] then []
    else
      var e := queue[0];
      var here :=
        match e
        case Start(c, _) => [SendText(c, Greeting)]
        case TextMessage(jid, name, text) => [SendText(chat, RenderTextMessage(name, jid, text))]
        case _ => [];
      here + Sends(chat, queue[1..])
  }

  /** Reference definition of the providers a queue attaches: one per `Login`
      whose connection is created, in queue order. */
  function ProvidersBuilt(queue: seq<Event>, envs: seq<LoginEnv>): (r: seq<WhatsappEvents.Provider>)
    requires |envs| == |queue|
    decreases |queue|
  {
    if queue == [] then []
    else
      var here := if queue[0].Login? && envs[0].connection.Success? then [LoginProvider(envs[0])] else [];
      here + ProvidersBuilt(queue[1..], envs[1..])
  }

  /** The handler's loop over its queue, with one environment reading per event
      (used by `Login` events only). What it sends is exactly the reference
      `Sends`, in queue order; the providers it ends with are the ones it began
      with followed by one per `Login` whose connection is created. */
  function DrainQueue(h: EventsHandler, queue: seq<Event>, envs: seq<LoginEnv>): (r: Reaction)
    requires |envs| == |queue|
    ensures r.handler.chatID == h.chatID
    ensures r.sent == Sends(h.chatID, queue)
    ensures r.handler.providers == h.providers + ProvidersBuilt(queue, envs)
    ensures forall i :: 0 <= i < |r.sent| ==>
              r.sent[i].chatID == h.chatID ||
              exists k :: 0 <= k < |queue| && queue[k].Start? && queue[k].chatID == r.sent[i].chatID
    decreases |queue|
  {
    if queue == [] then Reaction(h, [])
    else
      var first := Dispatch(h, queue[0], envs[0]);
      var rest := DrainQueue(first.handler, queue[1..], envs[1..]);
      assert forall i :: 0 <= i < |rest.sent| ==>
               rest.sent[i].chatID == h.chatID ||
               exists k :: 0 <= k < |queue| && queue[k].Start? && queue[k].chatID == rest.sent[i].chatID by {
        forall i | 0 <= i < |rest.sent| && rest.sent[i].chatID != h.chatID
          ensures exists k :: 0 <= k < |queue| && queue[k].Start? && queue[k].chatID == rest.sent[i].chatID
        {
          var k :| 0 <= k < |queue[1..]| && queue[1..][k].Start? && queue[1..][k].chatID == rest.sent[i].chatID;
          assert queue[k + 1] == queue[1..][k];
        }
      }
      Reaction(rest.handler, first.sent + rest.sent)
  }

  /** Events other than a `Login` whose connection is created leave the handler's
      state exactly as it was; a `Login` whose connection fails is one of them. */
  lemma {:induction false} NoConnectionKeepsHandler(h: EventsHandler, queue: seq<Event>, envs: seq<LoginEnv>)
    requires |envs| == |queue|
    requires forall j :: 0 <= j < |queue| ==> !(queue[j].Login? && envs[j].connection.Success?)
    ensures DrainQueue(h, queue, envs).handler == h
    decreases |queue|
  {
    if queue != [] {
      NoConnectionKeepsHandler(h, queue[1..], envs[1..]);
    }
  }

  /** Once a `Login` whose connection is created has been handled, the handler
      holds that connection's client after any later events up to the next
      `Login` whose connection is created, whatever the QR handshakes returned. */
  lemma {:induction false} LoginClientPersists(h: EventsHandler, queue: seq<Event>, envs: seq<LoginEnv>, i: nat)
    requires |envs| == |queue|
    requires i < |queue| && queue[i].Login? && envs[i].connection.Success?
    requires forall j :: i < j < |queue| ==> !(queue[j].Login? && envs[j].connection.Success?)
    ensures DrainQueue(h, queue, envs).handler.client == Some(envs[i].connection.value)
    decreases i
  {
    var first := Dispatch(h, queue[0], envs[0]);
    if i == 0 {
      NoConnectionKeepsHandler(first.handler, queue[1..], envs[1..]);
    } else {
      LoginClientPersists(first.handler, queue[1..], envs[1..], i - 1);
    }
  }

  /** Every WhatsApp text message in a queue is forwarded to the handler's chat as
      its transcript. */
  lemma {:induction false} TextMessagesForwarded(chat: ChatId, queue: seq<Event>, k: nat)
    requires k < |queue| && queue[k].TextMessage?
    ensures SendText(chat, RenderTextMessage(queue[k].whatsappSenderName, queue[k].whatsappRemoteJid, queue[k].text))
            in Sends(chat, queue)
    decreases k
  {
    if k > 0 {
      TextMessagesForwarded(chat, queue[1..], k - 1);
    }
  }

  /** Joining two strings creates no "jid:" when neither holds one and the seam
      is a space on the left or a newline on the right. */
  lemma JoinAddsNoMarker(a: string, b: string)
    requires !Contains(a, JidMarker) && !Contains(b, JidMarker)
    requires (|a| > 0 && a[|a| - 1] == ' ') || (|b| > 0 && b[0] == '\n')
    ensures !Contains(a + b, JidMarker)
  {
    var m := a + b;
    forall k | 0 <= k <= |m|
      ensures !OccursAt(m, JidMarker, k)
    {
      if k + 4 > |m| {
      } else if k + 4 <= |a| {
        assert m[k..k + 4] == a[k..k + 4];
        assert !OccursAt(a, JidMarker, k);
      } else if k >= |a| {
        assert m[k..k + 4] == b[k - |a|..k - |a| + 4];
        assert !OccursAt(b, JidMarker, k - |a|);
      } else if |a| > 0 && a[|a| - 1] == ' ' {
        assert m[k..k + 4][|a| - 1 - k] == ' ' != JidMarker[|a| - 1 - k];
      } else {
        assert m[k..k + 4][|a| - k] == '\n' != JidMarker[|a| - k];
      }
    }
  }

  /** The template up to the text holds no "jid:" when the name and JID hold none. */
  lemma TemplateHeadHasNoMarker(name: string, jid: string)
    requires !Contains(name, JidMarker) && !Contains(jid, JidMarker)
    ensures !Contains(TemplateHead(name, jid), JidMarker)
  {
    NotContainsWithoutFirstChar(FromLabel, JidMarker);
    NotContainsWithoutFirstChar(JidLabel, JidMarker);
    NotContainsWithoutFirstChar(MessageLabel, JidMarker);
    var s1 := FromLabel + name;
    JoinAddsNoMarker(FromLabel, name);
    var s2 := s1 + JidLabel;
    JoinAddsNoMarker(s1, JidLabel);
    var s3 := s2 + jid;
    assert s2[|s2| - 1] == ' ';
    JoinAddsNoMarker(s2, jid);
    JoinAddsNoMarker(s3, MessageLabel);
  }

  /** The template up to the text holds no "]" when the name and JID hold none. */
  lemma TemplateHeadHasNoTerminator(name: string, jid: string)
    requires ']' !in name && ']' !in jid
    ensures ']' !in TemplateHead(name, jid)
  {
  }

  /** The transcript template writes "Jid: " without brackets, so a reply to a
      rendered transcript carries no JID the extractor can find: as long as the
      name, JID and text hold no "jid:", extraction yields "". */
  lemma TranscriptDropsJid(name: string, jid: string, text: string)
    requires !Contains(name, JidMarker) && !Contains(jid, JidMarker) && !Contains(text, JidMarker)
    ensures ExtractMsgJid(RenderTextMessage(name, jid, text)) == ""
  {
    var head := TemplateHead(name, jid);
    TemplateHeadHasNoMarker(name, jid);
    assert head[|head| - 1] == ' ';
    JoinAddsNoMarker(head, text);
  }

  /** The other way a transcript reply goes wrong: a WhatsApp text that itself
      holds "jid: x]" makes the extractor return `x`, not the sender's JID. */
  lemma TranscriptTextCanMisCorrelate(name: string, jid: string, x: string, rest: string)
    requires !Contains(name, JidMarker) && ']' !in name
    requires !Contains(jid, JidMarker) && ']' !in jid
    requires x != "" && ']' !in x
    ensures ExtractMsgJid(RenderTextMessage(name, jid, "jid: " + x + "]" + rest)) == x
  {
    var head := TemplateHead(name, jid);
    TemplateHeadHasNoMarker(name, jid);
    TemplateHeadHasNoTerminator(name, jid);
    ExtractRoundTrip(head, x, rest);
    assert head + ("jid: " + x + "]" + rest) == head + "jid: " + x + "]" + rest;
  }
}

=== FILE: helpers.dfy ===
/** Reply correlation: recovering a WhatsApp JID from the text of a transcript
    message (`domain.ExtractMsgJid`). */
module Helpers {
  import opened Strings

  const JidMarker: string := "jid:"
  const JidTerminator: string := "]"

  /** Distance from the marker to the JID: the length of "jid: " with its space. */
  const JidOffset: int := 5

  /** The JID embedded in `message`, or "" when there is none.

      The marker is the FIRST "jid:" and the terminator the FIRST "]" of the whole
      string, not the first "]" after the marker. */
  function ExtractMsgJid(message: string): (r: string)
    ensures !Contains(message, JidMarker) ==> r == ""
    ensures !Contains(message, JidTerminator) ==> r == ""
    ensures IndexOf(message, JidTerminator) <= IndexOf(message, JidMarker) + JidOffset ==> r == ""
    ensures r != "" <==>
              Contains(message, JidMarker) && Contains(message, JidTerminator)
              && IndexOf(message, JidMarker) + JidOffset < IndexOf(message, JidTerminator)
    ensures r != "" ==>
              var start, end := IndexOf(message, JidMarker), IndexOf(message, JidTerminator);
              0 <= start + JidOffset < end <= |message| && OccursAt(message, r, start + JidOffset)
              && |r| == end - start - JidOffset
    ensures ']' !in r
  {
    var start := IndexOf(message, JidMarker);
    var end := IndexOf(message, JidTerminator);
    if start == -1 || end == -1 || start + JidOffset >= end then ""
    else
      CharAbsentBeforeIndex(message, ']');
      message[start + JidOffset..end]
  }

  /** The marker "jid:" cannot start inside a string that lacks it and end inside
      a string that starts with 'j'. */
  lemma MarkerNotStraddling(p: string, rest: string, k: int)
    requires !Contains(p, JidMarker)
    requires |rest| > 0 && rest[0] == 'j'
    requires 0 <= k < |p|
    ensures !OccursAt(p + rest, JidMarker, k)
  {
    var m := p + rest;
    if k + 4 <= |p| {
      assert m[k..k + 4] == p[k..k + 4];
      assert !OccursAt(p, JidMarker, k);
    } else if k + 4 <= |m| {
      // the marker would have to carry the 'j' of `rest` at offset 1, 2 or 3
      var d := |p| - k;
      assert m[k..k + 4][d] == m[|p|] == 'j';
      assert JidMarker[d] != 'j';
    }
  }

  /** Round trip: a JID written as `p + "jid: " + j + "]" + s` is recovered exactly,
      provided the prefix holds neither marker nor terminator and the JID is a
      non-empty run of non-']' characters. */
  lemma {:induction false} ExtractRoundTrip(p: string, j: string, s: string)
    requires !Contains(p, JidMarker) && ']' !in p
    requires j != "" && ']' !in j
    ensures ExtractMsgJid(p + "jid: " + j + "]" + s) == j
  {
    var m := p + "jid: " + j + "]" + s;
    var rest := "jid: " + j + "]" + s;
    assert m == p + rest;
    assert m[|p|..|p| + 4] == JidMarker;
    forall k | 0 <= k < |p|
      ensures !OccursAt(m, JidMarker, k)
    {
      MarkerNotStraddling(p, rest, k);
    }
    IndexOfIs(m, JidMarker, |p|);
    var end := |p| + 5 + |j|;
    assert m[end] == ']';
    OccursAtChar(m, ']', end);
    forall k | 0 <= k < end
      ensures !OccursAt(m, JidTerminator, k)
    {
      OccursAtChar(m, ']', k);
      if k < |p| {
        assert m[k] == p[k];
      } else if k >= |p| + 5 {
        assert m[k] == j[k - |p| - 5];
      } else {
        assert m[k] == "jid: "[k - |p|];
      }
    }
    IndexOfIs(m, JidTerminator, end);
    assert m[|p| + 5..end] == j;
  }

  /** Inputs the repository's own tests expect to yield "": no marker, no
      terminator, or a terminator too close to (or before) the marker. */
  lemma ExtractNegativeVectors()
    ensures ExtractMsgJid("") == ""
    ensures ExtractMsgJid("[jid:]") == ""
    ensures ExtractMsgJid("][jid:]") == ""
    ensures ExtractMsgJid("jid: ") == ""
    ensures ExtractMsgJid("[jid: dasd@asdsad.com") == ""
    ensures ExtractMsgJid("ewfwefwef") == ""
  {
    NotContainsWithoutFirstChar("", JidMarker);
    // "[jid:]": marker at 1, terminator at 5, and 5 <= 1 + 5.
    OccursAtChar("[jid:]", ']', 5);
    forall k | 0 <= k < 5 ensures !OccursAt("[jid:]", JidTerminator, k) {
      OccursAtChar("[jid:]", ']', k);
    }
    IndexOfIs("[jid:]", JidTerminator, 5);
    // "][jid:]": the terminator at 0 precedes the marker.
    OccursAtChar("][jid:]", ']', 0);
    IndexOfIs("][jid:]", JidTerminator, 0);
    // "jid: " and "[jid: dasd@asdsad.com" have no terminator.
    ContainsChar("jid: ", ']');
    ContainsChar("[jid: dasd@asdsad.com", ']');
    // "ewfwefwef" has no 'j' at all.
    NotContainsWithoutFirstChar("ewfwefwef", JidMarker);
  }
}

=== FILE: manager.dfy ===
/** The clients manager: the single loop that owns the chat → handler registry
    and forwards each incoming event to its chat's handler.

    A handler is represented by the queue of events forwarded to it (its
    channel, read by one consumer), so the registry maps each chat to the events
    it has been sent, in order. */
module Manager {
  import opened Wrappers
  import opened Domain

  type Registry = map<ChatId, seq<Event>>

  /** One pass of the manager's switch. A `Start` for a new chat registers a
      handler and forwards the `Start` to it; a `Start` for a known chat is
      dropped. `Login` and `Reply` are forwarded only to known chats. Every other
      event is ignored. No entry is ever removed or replaced. */
  function Route(reg: Registry, e: Event): (r: Registry)
    ensures e.Start? && e.chatID !in reg ==> r.Keys == reg.Keys + {e.chatID} && r[e.chatID] == [e]
    ensures e.Start? && e.chatID in reg ==> r == reg
    ensures (e.Login? || e.Reply?) && e.chatID in reg ==>
              r.Keys == reg.Keys && r[e.chatID] == reg[e.chatID] + [e]
    ensures (e.Login? || e.Reply?) && e.chatID !in reg ==> r == reg
    ensures e.TextMessage? ==> r == reg
    ensures forall c :: c in reg && ChatOf(e) != Some(c) ==> c in r && r[c] == reg[c]
  {
    match e
    case Start(c, _) => if c in reg then reg else reg[c := [e]]
    case Login(c, _) => if c in reg then reg[c := reg[c] + [e]] else reg
    case Reply(c, _, _, _) => if c in reg then reg[c := reg[c] + [e]] else reg
    case TextMessage(_, _, _) => reg
  }

  /** The manager's loop over a stream of events. Registered chats stay
      registered and their queues only grow at the end. */
  function Run(reg: Registry, events: seq<Event>): (r: Registry)
    ensures reg.Keys <= r.Keys
    ensures forall c :: c in reg ==> reg[c] <= r[c]
    decreases |events|
  {
    if events == [] then reg
    else Run(Route(reg, events[0]), events[1..])
  }

  /** The queue of chat `c`, empty when it has no handler. */
  function QueueOf(reg: Registry, c: ChatId): (q: seq<Event>) {
    if c in reg then reg[c] else []
  }

  /** Reference definition of what reaches chat `c` from a stream of events:
      until `c` has a handler only its first `Start` does; from then on, exactly
      its `Login` and `Reply` events, in arrival order. */
  function Forwarded(c: ChatId, known: bool, events: seq<Event>): (r: seq<Event>)
    decreases |events|
  {
    if events == [] then []
    else
      var e := events[0];
      if e.Start? && e.chatID == c && !known then [e] + Forwarded(c, true, events[1..])
      else if (e.Login? || e.Reply?) && e.chatID == c && known then [e] + Forwarded(c, true, events[1..])
      else Forwarded(c, known, events[1..])
  }

  /** Per-chat arrival order: the manager appends to each chat's queue exactly
      the events the reference definition selects, in order. */
  lemma {:induction false} RunForwardsInArrivalOrder(reg: Registry, events: seq<Event>, c: ChatId)
    ensures QueueOf(Run(reg, events), c) == QueueOf(reg, c) + Forwarded(c, c in reg, events)
    decreases |events|
  {
    if events != [] {
      var reg' := Route(reg, events[0]);
      RunForwardsInArrivalOrder(reg', events[1..], c);
      assert Run(reg, events) == Run(reg', events[1..]);
    }
  }

  /** A chat has a handler after the loop exactly when it had one before or a
      `Start` for it arrived. */
  lemma {:induction false} RegisteredIffStarted(reg: Registry, events: seq<Event>, c: ChatId)
    ensures c in Run(reg, events) <==>
              c in reg || exists i :: 0 <= i < |events| && events[i].Start? && events[i].chatID == c
    decreases |events|
  {
    if events != [] {
      var reg' := Route(reg, events[0]);
      RegisteredIffStarted(reg', events[1..], c);
      assert Run(reg, events) == Run(reg', events[1..]);
      if exists i :: 0 <= i < |events| && events[i].Start? && events[i].chatID == c {
        var i :| 0 <= i < |events| && events[i].Start? && events[i].chatID == c;
        if i > 0 {
          assert events[1..][i - 1] == events[i];
        }
      }
      if exists i :: 0 <= i < |events[1..]| && events[1..][i].Start? && events[1..][i].chatID == c {
        var i :| 0 <= i < |events[1..]| && events[1..][i].Start? && events[1..][i].chatID == c;
        assert events[i + 1] == events[1..][i];
      }
    }
  }

  /** Registry invariant: every queue begins with the `Start` that created it and
      holds only events addressed to its own chat. */
  predicate WellFormed(reg: Registry) {
    forall c :: c in reg ==>
      && |reg[c]| > 0 && reg[c][0].Start?
      && forall i :: 0 <= i < |reg[c]| ==> ChatOf(reg[c][i]) == Some(c)
  }

  /** The loop keeps the registry invariant, starting from any registry that has it
      (the manager starts from the empty one). */
  lemma {:induction false} RunKeepsWellFormed(reg: Registry, events: seq<Event>)
    requires WellFormed(reg)
    ensures WellFormed(Run(reg, events))
    decreases |events|
  {
    if events != [] {
      var reg' := Route(reg, events[0]);
      assert WellFormed(reg') by {
        forall c | c in reg'
          ensures |reg'[c]| > 0 && reg'[c][0].Start?
          ensures forall i :: 0 <= i < |reg'[c]| ==> ChatOf(reg'[c][i]) == Some(c)
        {
          if c in reg && ChatOf(events[0]) == Some(c) && !events[0].Start? {
            assert reg'[c] == reg[c] + [events[0]];
          }
        }
      }
      RunKeepsWellFormed(reg', events[1..]);
    }
  }
}

=== FILE: strings.dfy ===
/** Substring search over strings, in the shape of Go's `strings.Index` and
    `strings.Contains`. */
module Strings {

  /** `pat` occurs in `s` starting at index `i`. */
  predicate OccursAt(s: string, pat: string, i: int) {
    0 <= i && i + |pat| <= |s| && s[i..i + |pat|] == pat
  }

  /** Go's `strings.Contains(s, pat)`. */
  predicate Contains(s: string, pat: string) {
    exists i :: 0 <= i <= |s| && OccursAt(s, pat, i)
  }

  /** Go's `strings.Index(s, pat)`: the first index at which `pat` occurs, or -1. */
  function IndexOf(s: string, pat: string): (r: int)
    ensures r == -1 <==> !Contains(s, pat)
    ensures r != -1 ==> OccursAt(s, pat, r)
    ensures r != -1 ==> forall k :: 0 <= k < r ==> !OccursAt(s, pat, k)
  {
    IndexFrom(s, pat, 0)
  }

  /** The first occurrence of `pat` at or after `i`, given that none starts before `i`. */
  function IndexFrom(s: string, pat: string, i: nat): (r: int)
    requires i <= |s|
    requires forall k :: 0 <= k < i ==> !OccursAt(s, pat, k)
    ensures r == -1 ==> forall k :: 0 <= k <= |s| ==> !OccursAt(s, pat, k)
    ensures r != -1 ==> i <= r && OccursAt(s, pat, r)
    ensures r != -1 ==> forall k :: 0 <= k < r ==> !OccursAt(s, pat, k)
    decreases |s| - i
  {
    if OccursAt(s, pat, i) then i
    else if i + |pat| >= |s| then -1
    else IndexFrom(s, pat, i + 1)
  }

  /** An occurrence with none before it is the one `IndexOf` reports. */
  lemma IndexOfIs(s: string, pat: string, i: int)
    requires OccursAt(s, pat, i)
    requires forall k :: 0 <= k < i ==> !OccursAt(s, pat, k)
    ensures IndexOf(s, pat) == i
  {
  }

  /** A one-character pattern occurs exactly where that character stands. */
  lemma OccursAtChar(s: string, c: char, i: int)
    requires 0 <= i < |s|
    ensures OccursAt(s, [c], i) <==> s[i] == c
  {
  }

  /** A one-character pattern is contained exactly when the character appears. */
  lemma ContainsChar(s: string, c: char)
    ensures Contains(s, [c]) <==> c in s
  {
    if c in s {
      var i :| 0 <= i < |s| && s[i] == c;
      OccursAtChar(s, c, i);
    }
    if Contains(s, [c]) {
      var i :| 0 <= i <= |s| && OccursAt(s, [c], i);
      OccursAtChar(s, c, i);
    }
  }

  /** Before the first occurrence of a one-character pattern that character does not appear. */
  lemma CharAbsentBeforeIndex(s: string, c: char)
    requires IndexOf(s, [c]) != -1
    ensures forall k :: 0 <= k < IndexOf(s, [c]) ==> s[k] != c
  {
    var r := IndexOf(s, [c]);
    forall k | 0 <= k < r
      ensures s[k] != c
    {
      OccursAtChar(s, c, k);
    }
  }

  /** A pattern whose first character is missing from `s` does not occur in `s`. */
  lemma NotContainsWithoutFirstChar(s: string, pat: string)
    requires |pat| > 0 && pat[0] !in s
    ensures !Contains(s, pat)
  {
  }
}

=== FILE: telegram.dfy ===
/** Translation of Telegram bot updates into domain events: the per-update body of
    the Telegram events provider's `Run` loop. */
module Telegram {
  import opened Wrappers
  import opened Strings
  import opened Domain
  import opened Helpers

  /** The parts of a Telegram message the translation reads: the chat, the
      sender's user name, the text, and the text of the message it replies to. */
  datatype Message = Message(chatID: ChatId, fromUserName: string, text: string, replyToText: Option<string>)

  /** A Telegram update; updates that are not messages carry no `Message`. */
  datatype Update = Update(message: Option<Message>)

  const StartCommand: string := "/start"
  const LoginCommand: string := "/login"

  /** One update's translation, with the JID slice guarded by `start + 5 < end`,
      the guard `ExtractMsgJid` uses. Commands match the whole text exactly. */
  function Translate(u: Update): (r: Option<Event>)
    ensures u.message.None? ==> r.None?
    ensures r.Some? ==> !r.value.TextMessage?
    ensures r.Some? ==> ChatOf(r.value) == Some(u.message.value.chatID)
    ensures r.Some? ==> r.value.fromUser == u.message.value.fromUserName
    ensures u.message.Some? ==> (u.message.value.text == StartCommand <==> r.Some? && r.value.Start?)
    ensures u.message.Some? ==> (u.message.value.text == LoginCommand <==> r.Some? && r.value.Login?)
    ensures (r.Some? && r.value.Reply?) <==>
              && u.message.Some?
              && u.message.value.text != StartCommand && u.message.value.text != LoginCommand
              && u.message.value.replyToText.Some?
              && ExtractMsgJid(u.message.value.replyToText.value) != ""
    ensures r.Some? && r.value.Reply? ==>
              && r.value.reply == u.message.value.text
              && r.value.remoteJid == ExtractMsgJid(u.message.value.replyToText.value)
  {
    match u.message
    case None => None
    case Some(m) =>
      if m.text == StartCommand then Some(Start(m.chatID, m.fromUserName))
      else if m.text == LoginCommand then Some(Login(m.chatID, m.fromUserName))
      else if m.replyToText.None? then None
      else
        var replied := m.replyToText.value;
        var start := IndexOf(replied, JidMarker);
        var end := IndexOf(replied, JidTerminator);
        if start != -1 && end != -1 && start + JidOffset < end then
          Some(Reply(m.chatID, m.fromUserName, m.text, replied[start + JidOffset..end]))
        else None
  }

  /** What one iteration of the loop does as written: emit an event, skip the
      update, or panic on an out-of-range slice. */
  datatype Step = Emit(event: Event) | Skip | SlicePanic

  /** The translation exactly as the loop writes it: the guard is only
      `start < end`, but the slice `text[start+5 : end]` needs `start + 5 <= end`;
      Go panics when the lower bound exceeds the upper. */
  function TranslateAsWritten(u: Update): (r: Step)
    ensures r.SlicePanic? <==>
              && u.message.Some?
              && u.message.value.text != StartCommand && u.message.value.text != LoginCommand
              && u.message.value.replyToText.Some?
              && var replied := u.message.value.replyToText.value;
                 var start, end := IndexOf(replied, JidMarker), IndexOf(replied, JidTerminator);
                 start != -1 && end != -1 && start < end < start + JidOffset
  {
    match u.message
    case None => Skip
    case Some(m) =>
      if m.text == StartCommand then Emit(Start(m.chatID, m.fromUserName))
      else if m.text == LoginCommand then Emit(Login(m.chatID, m.fromUserName))
      else if m.replyToText.None? then Skip
      else
        var replied := m.replyToText.value;
        var start := IndexOf(replied, JidMarker);
        var end := IndexOf(replied, JidTerminator);
        if start != -1 && end != -1 && start < end then
          if start + JidOffset <= end then
            Emit(Reply(m.chatID, m.fromUserName, m.text, replied[start + JidOffset..end]))
          else SlicePanic
        else Skip
  }

  /** Replying to a message whose text is "[jid:]" passes the inline guard
      (marker at 1, terminator at 5) and then slices `[6:5]`. */
  lemma BracketOnlyReplyPanics(chat: ChatId, user: string, text: string)
    requires text != StartCommand && text != LoginCommand
    ensures TranslateAsWritten(Update(Some(Message(chat, user, text, Some("[jid:]"))))) == SlicePanic
  {
    var replied := "[jid:]";
    assert replied[1..5] == JidMarker;
    forall k | 0 <= k < 1 ensures !OccursAt(replied, JidMarker, k) {
      assert replied[k] == '[';
    }
    IndexOfIs(replied, JidMarker, 1);
    OccursAtChar(replied, ']', 5);
    forall k | 0 <= k < 5 ensures !OccursAt(replied, JidTerminator, k) {
      OccursAtChar(replied, ']', k);
    }
    IndexOfIs(replied, JidTerminator, 5);
  }

  /** The corrected translation departs from the loop as written only on replies
      the written guard mishandles: those that would panic and those that would
      carry an empty JID. Everywhere else the two agree. */
  lemma CorrectedAgreesWithAsWritten(u: Update)
    ensures Translate(u).Some? ==> TranslateAsWritten(u) == Emit(Translate(u).value)
    ensures TranslateAsWritten(u).Skip? ==> Translate(u).None?
    ensures TranslateAsWritten(u).Emit? && Translate(u).None? ==>
              TranslateAsWritten(u).event.Reply? && TranslateAsWritten(u).event.remoteJid == ""
  {
  }

  /** The loop over a stream of updates: each update yields at most one event,
      in update order, and no update yields a WhatsApp text message. */
  function TranslateAll(updates: seq<Update>): (events: seq<Event>)
    ensures |events| <= |updates|
    ensures forall i :: 0 <= i < |events| ==> !events[i].TextMessage?
    ensures forall i :: 0 <= i < |events| ==>
              exists k :: 0 <= k < |updates| && Translate(updates[k]) == Some(events[i])
  {
    if updates == [] then []
    else
      var rest := TranslateAll(updates[1..]);
      assert forall i :: 0 <= i < |rest| ==>
               exists k :: 1 <= k < |updates| && Translate(updates[k]) == Some(rest[i]) by {
        forall i | 0 <= i < |rest|
          ensures exists k :: 1 <= k < |updates| && Translate(updates[k]) == Some(rest[i])
        {
          var k :| 0 <= k < |updates[1..]| && Translate(updates[1..][k]) == Some(rest[i]);
          assert Translate(updates[k + 1]) == Some(rest[i]);
        }
      }
      match Translate(updates[0])
      case Some(e) => [e] + rest
      case None => rest
  }

  /** A single update yields its translation, if it has one, and nothing else. */
  lemma TranslateAllSingle(u: Update)
    ensures TranslateAll([u]) == (if Translate(u).Some? then [Translate(u).value] else [])
  {
  }

  /** The loop distributes over a split of the stream, so together with
      `TranslateAllSingle` each translatable update yields exactly its event, in
      update order. */
  lemma {:induction false} TranslateAllAppend(a: seq<Update>, b: seq<Update>)
    ensures TranslateAll(a + b) == TranslateAll(a) + TranslateAll(b)
    decreases |a|
  {
    if a == [] {
      assert a + b == b;
    } else {
      assert (a + b)[0] == a[0];
      assert (a + b)[1..] == a[1..] + b;
      TranslateAllAppend(a[1..], b);
    }
  }

  /** The reply scenario of the repository's tests: the JID between "jid: " and
      "]" of the replied-to transcript becomes the reply's remote JID. */
  lemma ReplyVector(transcript: string)
    requires transcript == "From: Username Surename [" + "jid: " + "example@mail.com" + "]"
                           + "\n==========\nMessage: Hello, world!"
    ensures Translate(Update(Some(Message(42, "testuser", "reply to a message", Some(transcript)))))
            == Some(Reply(42, "testuser", "reply to a message", "example@mail.com"))
  {
    var p := "From: Username Surename [";
    var s := "\n==========\nMessage: Hello, world!";
    NotContainsWithoutFirstChar(p, JidMarker);
    ExtractRoundTrip(p, "example@mail.com", s);
  }

  /** Only "/start" and "/login" are commands: "/logout" and "/help", which the
      tests expect, are dropped unless they reply to a transcript. */
  lemma LogoutAndHelpAreNotCommands(chat: ChatId, user: string)
    ensures Translate(Update(Some(Message(chat, user, "/logout", None)))) == None
    ensures Translate(Update(Some(Message(chat, user, "/help", None)))) == None
    ensures Translate(Update(Some(Message(chat, user, "/Start", None)))) == None
  {
  }
}

=== FILE: whatsapp_client.dfy ===
/** The WhatsApp connection wrapper (`whatsapp.Client`): contact projection,
    message-type dispatch for `Send`, and the step order of `Logout`. The
    connection itself is abstracted to its contact store and to the calls the
    wrapper makes on it; each call's error is an input. */
module WhatsappClient {
  import opened Wrappers
  import opened GoErrors
  import opened Domain

  /** A contact as the WhatsApp library stores it. */
  datatype StoreContact = StoreContact(jid: string, notify: string, name: string, short: string)

  /** A connection; its store is nil until the library has synchronised one. */
  datatype Conn = Conn(store: Option<map<string, StoreContact>>)

  /** What the core can ask to send: the message union `Send` dispatches on.
      Only the text variant is supported; the other stands for every other type. */
  datatype WhatsappMessage =
    | WhatsappTextMessage(remoteJid: string, text: string)
    | OtherMessage(kind: string)

  /** The library's text message as built by `Send`: remote JID and text only. */
  datatype WireMessage = WireTextMessage(remoteJid: string, text: string)

  /** The calls the wrapper makes on the connection, in order. */
  datatype ConnCall = RemoveHandlers | ConnLogout | ConnRestore | ConnSend(message: WireMessage)

  /** The calls made and the error returned (None for nil). */
  datatype Outcome = Outcome(calls: seq<ConnCall>, err: Option<Error>)

  /** The contact snapshot: empty without a store, otherwise one entry per stored
      JID keeping only its `Jid` and `Name`. */
  function GetContacts(c: Conn): (r: map<string, WhatsappContact>)
    ensures c.store.None? ==> r == map[]
    ensures c.store.Some? ==> r.Keys == c.store.value.Keys
    ensures c.store.Some? ==> forall jid :: jid in r ==>
              r[jid].jid == c.store.value[jid].jid && r[jid].name == c.store.value[jid].name
  {
    match c.store
    case None => map[]
    case Some(contacts) =>
      map jid | jid in contacts :: WhatsappContact(contacts[jid].jid, contacts[jid].name)
  }

  /** `Send`: a text message is handed to the connection with its JID and text,
      and the connection's error is returned; any other type is refused with
      `ErrUnsupportedMessageType` before the connection is touched. */
  function Send(msg: WhatsappMessage, connErr: Option<Error>): (r: Outcome)
    ensures msg.OtherMessage? ==> r == Outcome([], Some(ErrUnsupportedMessageType))
    ensures msg.WhatsappTextMessage? ==>
              r == Outcome([ConnSend(WireTextMessage(msg.remoteJid, msg.text))], connErr)
  {
    match msg
    case WhatsappTextMessage(jid, text) => Outcome([ConnSend(WireTextMessage(jid, text))], connErr)
    case OtherMessage(_) => Outcome([], Some(ErrUnsupportedMessageType))
  }

  /** `Logout`: handlers are removed first, so no update arrives after the
      session is invalidated; the connection's logout error is returned. */
  function Logout(logoutErr: Option<Error>): (r: Outcome)
    ensures r.err == logoutErr
    ensures |r.calls| == 2
    ensures RemoveHandlers in r.calls && ConnLogout in r.calls
    ensures forall i, j ::
              (0 <= i < |r.calls| && 0 <= j < |r.calls| && r.calls[i] == RemoveHandlers && r.calls[j] == ConnLogout)
              ==> i < j
  {
    Outcome([RemoveHandlers, ConnLogout], logoutErr)
  }

  /** `Restore` forwards to the connection and returns its error: one call, to
      the connection's `Restore` and nothing else, and success exactly when the
      connection succeeds. The restore loop relies on this. */
  function Restore(restoreErr: Option<Error>): (r: Outcome)
    ensures |r.calls| == 1 && r.calls[0] == ConnRestore
    ensures r.err == restoreErr
  {
    Outcome([ConnRestore], restoreErr)
  }

  /** Only a text message reaches the connection, and an unsupported message
      fails whatever the connection would have answered. */
  lemma SendReachesConnOnlyForText(msg: WhatsappMessage, connErr: Option<Error>)
    ensures (exists w :: ConnSend(w) in Send(msg, connErr).calls) <==> msg.WhatsappTextMessage?
    ensures msg.OtherMessage? ==> Send(msg, connErr).err.Some? && IsSentinel(Send(msg, connErr).err.value, UnsupportedMessageType)
  {
  }

  /** The repository's test: three stored contacts project to their JID and name,
      their notify and short names dropped. */
  lemma GetContactsVector()
    ensures GetContacts(Conn(Some(map[
              "1" := StoreContact("1", "test1-notify", "test1-name", "test1-short"),
              "2" := StoreContact("2", "test2-notify", "test2-name", "test2-short"),
              "3" := StoreContact("3", "test3-notify", "test3-name", "test3-short")])))
            == map["1" := WhatsappContact("1", "test1-name"),
                   "2" := WhatsappContact("2", "test2-name"),
                   "3" := WhatsappContact("3", "test3-name")]
  {
  }
}

=== FILE: whatsapp_events.dfy ===
/** The WhatsApp events provider: the filter that turns incoming WhatsApp text
    messages into domain events, the classifier that decides which transport
    errors trigger a session restore, and the bounded restore loop.

    The library's callbacks become functions and methods over explicit inputs:
    the contact snapshot `GetContacts` would return, and the answer the
    connection gives `Restore` on each attempt together with the clock reading
    taken after it. Pauses between attempts are counted, not slept. */
module WhatsappEvents {
  import opened Wrappers
  import opened GoErrors
  import opened Strings
  import opened Domain
  import WhatsappClient

  const RestoreAttempts: nat := 3
  const RestoreIntervalSeconds: nat := 1

  /** Error texts known not to affect the connection. */
  const IgnoredInvalidData: string := "error processing data: received invalid data"
  const IgnoredInvalidTag: string := "invalid string with tag 174"

  /** Sender name used when the remote JID is not among the contacts. */
  const UnknownContactName: string := "<unknown>"

  /** The provider's state: the Unix time before which messages are history, and
      the chat it tags events with. */
  datatype Provider = Provider(startAt: Int64, chatID: ChatId)

  /** The parts of the library's message info the filter reads. */
  datatype MessageInfo = MessageInfo(remoteJid: string, fromMe: bool, timestamp: Uint64)

  /** The library's `whatsapp.TextMessage` as delivered to the provider. */
  datatype IncomingMessage = IncomingMessage(info: MessageInfo, text: string)

  /** An event pushed by the provider, with the chat identifier it is tagged with
      (the declared `TextMessageEvent` has no field for it). */
  datatype Emission = Emission(chatID: ChatId, event: Event)

  /** What handling one message did: how often it asked for the contacts, and
      what it pushed. */
  datatype Ingest = Ingest(contactLookups: nat, emitted: Option<Emission>)

  /** `HandleTextMessage`: history (timestamp before `startAt`, compared as
      `uint64`) and the operator's own messages are dropped before any contact
      lookup; every other message is pushed as one text-message event, named
      after its contact or "<unknown>". `contacts` is the snapshot the lookup returns. */
  function HandleTextMessage(p: Provider, m: IncomingMessage, contacts: map<string, WhatsappContact>): (r: Ingest)
    ensures m.info.timestamp < Uint64Of(p.startAt) ==> r == Ingest(0, None)
    ensures m.info.fromMe ==> r == Ingest(0, None)
    ensures r.emitted.Some? <==> !m.info.fromMe && m.info.timestamp >= Uint64Of(p.startAt)
    ensures r.emitted.Some? ==>
              && r.contactLookups == 1
              && r.emitted.value.chatID == p.chatID
              && r.emitted.value.event.TextMessage?
              && r.emitted.value.event.whatsappRemoteJid == m.info.remoteJid
              && r.emitted.value.event.text == m.text
    ensures r.emitted.Some? && m.info.remoteJid in contacts ==>
              r.emitted.value.event.whatsappSenderName == contacts[m.info.remoteJid].name
    ensures r.emitted.Some? && m.info.remoteJid !in contacts ==>
              r.emitted.value.event.whatsappSenderName == UnknownContactName
  {
    if m.info.timestamp < Uint64Of(p.startAt) || m.info.fromMe then Ingest(0, None)
    else
      var name := if m.info.remoteJid in contacts then contacts[m.info.remoteJid].name else UnknownContactName;
      Ingest(1, Some(Emission(p.chatID, TextMessage(m.info.remoteJid, name, m.text))))
  }

  /** Composed with the client's projection: the sender name is the stored
      contact's name, or "<unknown>" when there is no store or no such contact. */
  lemma SenderNameFromStore(p: Provider, m: IncomingMessage, conn: WhatsappClient.Conn)
    requires !m.info.fromMe && m.info.timestamp >= Uint64Of(p.startAt)
    ensures var r := HandleTextMessage(p, m, WhatsappClient.GetContacts(conn));
            r.emitted.Some? &&
            r.emitted.value.event.whatsappSenderName ==
              if conn.store.Some? && m.info.remoteJid in conn.store.value
              then conn.store.value[m.info.remoteJid].name
              else UnknownContactName
  {
  }

  /** An error whose text contains one of the two known-harmless texts. */
  predicate Ignorable(err: Error) {
    Contains(err.Message(), IgnoredInvalidData) || Contains(err.Message(), IgnoredInvalidTag)
  }

  /** The error kinds `HandleError` restores on: a closed or failed connection
      (by dynamic type, not looking through wrapping), or any error whose wrap
      chain holds the timeout sentinel. */
  predicate ConnectionLost(err: Error) {
    err.ConnectionClosed? || err.ConnectionFailed? || IsSentinel(err, ConnectionTimeout)
  }

  /** What the connection answers on one restore attempt (its error, None for
      nil), with the Unix time the provider reads right after. */
  datatype RestoreAnswer = RestoreAnswer(connErr: Option<Error>, clock: Int64)

  /** What a run of the restore loop did: the calls it made on the connection,
      the pauses it took and their total length in seconds, and whether the
      session came back. */
  datatype RestoreRun = RestoreRun(calls: seq<WhatsappClient.ConnCall>, waits: nat, sleptSeconds: nat, restored: bool)

  const NoRestore: RestoreRun := RestoreRun([], 0, 0, false)

  /** The number of `Restore` attempts a run made: one connection call each. */
  function Attempts(run: RestoreRun): (n: nat) {
    |run.calls|
  }

  /** The restore loop's promise, given the answer `answers[k]` that attempt
      `k + 1` would get from the connection through `WhatsappClient.Restore`: it
      calls the connection's `Restore` and nothing else, at most
      `RestoreAttempts` times, and stops at the first nil error; it pauses
      `RestoreIntervalSeconds` after every failed attempt, the last one included;
      `startAt` moves to the success time and only on success. */
  predicate IsRestoreRun(p: Provider, answers: seq<RestoreAnswer>, p': Provider, run: RestoreRun)
    requires |answers| >= RestoreAttempts
  {
    && 1 <= Attempts(run) <= RestoreAttempts
    && (forall k :: 0 <= k < |run.calls| ==> run.calls[k] == WhatsappClient.ConnRestore)
    && (forall k :: 0 <= k < Attempts(run) - 1 ==> answers[k].connErr.Some?)
    && (run.restored <==> answers[Attempts(run) - 1].connErr.None?)
    && (!run.restored ==> Attempts(run) == RestoreAttempts)
    && run.waits == (if run.restored then Attempts(run) - 1 else Attempts(run))
    && run.sleptSeconds == run.waits * RestoreIntervalSeconds
    && p'.chatID == p.chatID
    && p'.startAt == (if run.restored then answers[Attempts(run) - 1].clock else p.startAt)
  }

  /** `restoreSession`: up to `RestoreAttempts` calls to the client's `Restore`,
      pausing `RestoreIntervalSeconds` after each failure. */
  method RestoreSession(p: Provider, answers: seq<RestoreAnswer>) returns (p': Provider, run: RestoreRun)
    requires |answers| >= RestoreAttempts
    ensures IsRestoreRun(p, answers, p', run)
  {
    p' := p;
    var calls: seq<WhatsappClient.ConnCall> := [];
    var waits := 0;
    var i := 1;
    while i <= RestoreAttempts
      invariant 1 <= i <= RestoreAttempts + 1
      invariant |calls| == i - 1 && waits == i - 1
      invariant forall k :: 0 <= k < |calls| ==> calls[k] == WhatsappClient.ConnRestore
      invariant forall k :: 0 <= k < i - 1 ==> answers[k].connErr.Some?
      invariant p' == p
    {
      var answer := answers[i - 1];
      var outcome := WhatsappClient.Restore(answer.connErr);
      calls := calls + outcome.calls;
      if outcome.err.None? {
        p' := p'.(startAt := answer.clock);
        run := RestoreRun(calls, waits, waits * RestoreIntervalSeconds, true);
        return;
      }
      waits := waits + 1;
      i := i + 1;
    }
    run := RestoreRun(calls, waits, waits * RestoreIntervalSeconds, false);
  }

  /** `HandleError`: the two harmless texts are ignored whatever the error's
      kind; otherwise only a lost connection starts the restore loop. A failed
      restore emits nothing. */
  method HandleError(p: Provider, err: Error, answers: seq<RestoreAnswer>) returns (p': Provider, run: RestoreRun)
    requires |answers| >= RestoreAttempts
    ensures Ignorable(err) ==> p' == p && run == NoRestore
    ensures !ConnectionLost(err) ==> p' == p && run == NoRestore
    ensures Attempts(run) > 0 <==> !Ignorable(err) && ConnectionLost(err)
    ensures !Ignorable(err) && ConnectionLost(err) ==> IsRestoreRun(p, answers, p', run)
  {
    if Ignorable(err) {
      return p, NoRestore;
    }
    if err.ConnectionClosed? || err.ConnectionFailed? {
      p', run := RestoreSession(p, answers);
    } else if IsSentinel(err, ConnectionTimeout) {
      p', run := RestoreSession(p, answers);
    } else {
      p', run := p, NoRestore;
    }
  }

  /** The restore loop reports success exactly when one of the attempts it was
      allowed would have succeeded. */
  lemma RestoredIffSomeAttemptSucceeds(p: Provider, answers: seq<RestoreAnswer>, p': Provider, run: RestoreRun)
    requires |answers| >= RestoreAttempts
    requires IsRestoreRun(p, answers, p', run)
    ensures run.restored <==> exists k :: 0 <= k < RestoreAttempts && answers[k].connErr.None?
  {
  }

  /** With a clock that never reads earlier than the current `startAt`, a restore
      never moves `startAt` back, so history filtering only ever tightens. */
  lemma StartAtNeverDecreases(p: Provider, answers: seq<RestoreAnswer>, p': Provider, run: RestoreRun)
    requires |answers| >= RestoreAttempts
    requires forall k :: 0 <= k < RestoreAttempts && answers[k].connErr.None? ==> answers[k].clock >= p.startAt
    requires IsRestoreRun(p, answers, p', run)
    ensures p'.startAt >= p.startAt
    ensures p.startAt >= 0 ==> forall m: IncomingMessage, contacts ::
              m.info.timestamp < Uint64Of(p.startAt) ==> HandleTextMessage(p', m, contacts).emitted.None?
  {
  }

  /** A plain error such as `errors.New("test error")` starts no restore, though
      the repository's test expects one; a timeout wrapped in another error does,
      a closed connection wrapped in another error does not. */
  lemma ClassifierVectors(text: string, inner: string)
    ensures !ConnectionLost(Plain(text))
    ensures ConnectionLost(Wrapped(text, SentinelError(ConnectionTimeout, inner)))
    ensures !ConnectionLost(Wrapped(text, ConnectionClosed(inner)))
  {
    assert !IsSentinel(ConnectionClosed(inner), ConnectionTimeout);
  }
}

=== FILE: wrappers.dfy ===
/** Optional values and fallible results, standing in for Go's nil values and
    `(value, error)` pairs. */
module Wrappers {

  /** A value that may be absent (a nil value or a missing map entry in Go). */
  datatype Option<+T> = None | Some(value: T)

  /** The outcome of a Go call returning `(value, error)`: exactly one of the two is meaningful. */
  datatype Result<+R, +E> = Success(value: R) | Failure(error: E)
}
